=== FILE: README.md ===
# IELTS platform storage and auth core, modelled in Dafny

The platform is a browser-only application. All of its data lives in the browser.
`localStorage` keeps one JSON document per collection: `students`, `tests`, `lessons`,
`homeworks`, `testResults`, the `adminActivities` log, `telegramConfig` and the
`adminSettings` record. `sessionStorage` keeps the login flags of the two roles and a
snapshot of the logged-in student.

This project models the two objects every page goes through:

- the storage facade `IELTSPlatform`: `initStorage`, `getData`, `saveData`,
  `logActivity`, `calculateProgress`, `updateStudentProgress` and `validateEmail`;
- the authentication service `AuthSystem`: admin and student login, the two auth checks,
  `getCurrentStudent`, `logout` and the two password changes.

Each operation is a pure function of the `State` and its arguments; `validateEmail`
needs no state and is a method over the string. `State` holds the `localStorage` map
and the session keys. Operations that can throw or write return a `Run`, which is
either `Done(state, value)` or `Threw(state)`. `getData` returns only a value, the two
auth checks a verdict and a navigation, and `logout` the new state and a navigation. A throw is a JavaScript `TypeError`, a `SyntaxError` from `JSON.parse`,
or a refused `setItem`. In both outcomes the state keeps the writes made before the
return or throw.

What one call observes from outside is an `Env` parameter:

- `Date.now()`, `toLocaleString()` and `toISOString()`;
- whether the browser accepts a given `localStorage` write, as the oracle `fits`.

The modules:

- `Json`: JSON values, JavaScript truthiness, property access, `String(v)`.
- `Browser`: stored entries, session, state, environment, outcomes, storage keys.
- `Lookup`: `Array.prototype.find` for the id and login searches.
- `Records`: typed views of the settings, activity, student and homework objects.
- `Platform`: the storage facade.
- `Email`: `validateEmail`.
- `Auth`: the auth service.
- `StorageFacts` and `AuthFacts`: properties that relate several calls.

A stored entry is classified by what `JSON.parse` makes of it:

- `Json(v)`, a document;
- `Blank`, the empty string;
- `Corrupt`, any other text that is not JSON.

So `getData` is fail-soft. It returns `[]` for a missing key, for unparsable text and
for a falsy document. A truthy document that is not an array comes back unchanged. The
array methods (`find`, `filter`, `push`) then throw on it, and the model shows that
failure as `Collection(...) == None` and a `Threw` outcome.

Three behaviours of the code are worth stating on their own.

- `initStorage` tests `!localStorage.getItem(key)`, so it also rewrites a key that holds
  the empty string, not only a missing key.
- `changeStudentPassword` does not refresh the `currentStudent` snapshot, so
  `getCurrentStudent()` keeps returning the old password.
- Both password changes ignore the result of `saveData`. When the browser refuses the
  write, the reply is still `Password changed successfully` while the stored password
  stays the old one.

## Model

| member | source | states |
|---|---|---|
| Lookup.FindFirst | assets/js/auth.js:22 | `find` returns the first element matching the callback, and every element before it is a non-null miss. With no hit, no element is null and none matches. It throws only after reaching a `null` with no match before it. |
| Lookup.FirstHitIsFound | assets/js/auth.js:22 | The index `find` stops at is the only first hit. So "the first matching record" is well defined. |
| Lookup.FirstHitIsFoundAny | assets/js/auth.js:22 | Wherever the first hit is, `find` stops there. |
| Platform.InitFrom | assets/js/utils.js:26-30 | The defaults loop leaves the session, set keys and unlisted keys unchanged. When it finishes, every listed key is set and every unset listed key holds its default. It throws only if some default had to be written and the browser refuses that default. Whether or not it throws, every key is as before or holds its listed default. |
| Platform.InitFromRoomy | assets/js/utils.js:26-30 | When the browser accepts every write, the defaults loop never throws. |
| Platform.InitStorage | assets/js/utils.js:11-31 | `initStorage` writes each of the eight defaults only where the key is unset or empty, and the admin record gets `ielts_teacher`/`admin123`. Stored non-empty entries, other keys and the session do not change. It throws only when a default must be written and the write is refused. It never throws when every write fits. Whether or not it throws, every key is as before or holds its default. |
| Platform.GetData | assets/js/utils.js:34-41 | `getData` returns the stored document when it parses to a truthy value and `[]` otherwise. It never returns a falsy value. |
| Platform.SaveData | assets/js/utils.js:44-52 | `saveData` never throws. It returns true exactly when the browser accepts the write, and then the key holds the data. It changes nothing when the write is refused, and it never changes another key or the session. |
| Platform.LogEntry | assets/js/utils.js:57-62 | The pushed entry decodes to the action, the type and the call's two clock readings. |
| Platform.LogActivity | assets/js/utils.js:55-64 | `logActivity` throws exactly when the log is a truthy non-array, and then changes nothing. Otherwise the log becomes the old log plus exactly the new entry, or stays as it was if the write is refused. No key other than the log and no session key changes. |
| Platform.RoundPercent | assets/js/utils.js:90 | `Math.round(c / n * 100)` on exact values is the unique r in 0..100 with 2nr <= 200c + n < 2nr + 2n, i.e. the percentage rounded half up. |
| Platform.Owned | assets/js/utils.js:85 | The filter by `studentId` keeps only elements whose `studentId` is the given id, and never more elements than it is given. |
| Platform.Completed | assets/js/utils.js:89 | The completed count never exceeds the number of homework it is given. |
| Platform.CalculateProgress | assets/js/utils.js:83-91 | `calculateProgress` writes nothing. It throws exactly when the homework collection is a truthy non-array or holds `null`. It returns 0 when the student has no homework, and otherwise the completed share rounded half up, always within 0..100. |
| Platform.UpdateStudentProgress | assets/js/utils.js:94-103 | `updateStudentProgress` changes only the `students` key and never the session. It throws, writing nothing, when the roster is a truthy non-array or its search reaches a `null` before any hit. When the search finds no student with the id, it changes nothing. When it finds one but `calculateProgress` throws, it throws too, writing nothing. |
| Email.ValidateEmail | assets/js/utils.js:135-138 | The scan accepts exactly the strings the regular expression `^[^\s@]+@[^\s@]+\.[^\s@]+$` matches. These are also exactly the strings with no white space, one `@` not at the start, and a `.` inside the domain that is neither its first nor its last character. |
| Email.Witness | assets/js/utils.js:136 | A string of that shape can be split into the three runs the regular expression needs. |
| Email.PatternImpliesShape | assets/js/utils.js:136 | A match has no white space and only one `@`. |
| Email.PatternIsShape | assets/js/utils.js:136 | The regular expression and the description in words accept the same strings. |
| Records.SettingsRoundTrip | assets/js/utils.js:20-23 | The admin record reads back from the object stored for it. |
| Records.ActivityRoundTrip | assets/js/utils.js:57-62 | An activity entry reads back from the object pushed for it. |
| Records.StudentRoundTrip | assets/js/auth.js:22 | A student record reads back from its stored object. |
| Records.HomeworkRoundTrip | assets/js/utils.js:85-89 | A homework record reads back from its stored object. |
| Auth.AdminLogin | assets/js/auth.js:7-17 | On a credential mismatch `adminLogin` returns false and changes nothing. On a match it sets the admin flag and the login time. It throws exactly when the log cannot be appended to, and otherwise returns true. Only the log key is written. |
| Auth.StudentLogin | assets/js/auth.js:20-31 | `studentLogin` returns the first stored student whose username and password both match, when there is one and the log is an array. It sets the student flag and the snapshot. With no match and no `null` reached, it returns null and changes nothing. It throws on a non-array roster or on a `null` reached first. The admin session and all keys other than the log do not change. On a hit it throws exactly when the log is not an array. Otherwise the log gains the entry `👤 Student logged in: <name>` of type `student` when that write fits, and the store is unchanged when it does not. |
| Auth.CheckAdminAuth | assets/js/auth.js:34-40 | The admin check passes exactly when the admin flag is the string `'true'`. Otherwise it redirects to `login.html`. |
| Auth.CheckStudentAuth | assets/js/auth.js:43-49 | The student check passes exactly when the student flag is `'true'`. Otherwise it redirects to `login.html`. |
| Auth.GetCurrentStudent | assets/js/auth.js:52-55 | `getCurrentStudent` returns the stored snapshot's document whenever it is JSON. It returns null when no snapshot is stored or it is the empty string. It throws exactly when the snapshot is not JSON. |
| Auth.Logout | assets/js/auth.js:58-68 | Logging out as `'admin'` clears the admin flag and time. Any other argument clears the student flag and snapshot. Nothing else changes, and the page always goes to `login.html`. |
| Auth.ChangeAdminPassword | assets/js/auth.js:71-83 | A wrong current password gives `Current password is incorrect` and changes nothing. The right one gives `Password changed successfully` unless the log append throws. When the write is accepted, only the password field of the admin record changes. Only the settings and log keys are written, and the session is never written. For the right password, the log then gains the entry `🔑 Admin password changed` of type `security` when that write fits; otherwise the store keeps only the settings write. |
| Auth.ChangeStudentPassword | assets/js/auth.js:86-103 | No student with the id gives `Student not found`. A first such student with another password gives `Current password is incorrect`. Neither case changes anything. It throws, changing nothing, on a non-array roster or a `null` reached before any hit. The right password gives `Password changed successfully` unless the log append throws. The session is never written. For the right password, the log then gains the entry `🔑 Password changed for student: <name>` of type `student` when that write fits; otherwise the store keeps only the roster write. |
| StorageFacts.InitStorageIdempotent | assets/js/utils.js:26-30 | A second `initStorage` after one that finished writes nothing and cannot throw. |
| StorageFacts.InitStorageFresh | assets/js/utils.js:12-30 | On an empty browser, `initStorage` creates exactly the eight keys, each holding its default. |
| StorageFacts.FreshAdminSettings | assets/js/utils.js:20-23 | On an empty browser, the admin record then reads as `ielts_teacher`/`admin123`. |
| StorageFacts.SaveThenGet | assets/js/utils.js:34-52 | After an accepted `saveData(key, data)`, `getData(key)` returns `data`, or `[]` when `data` is falsy. Every other key reads as before. |
| StorageFacts.LogStep | assets/js/utils.js:55-64 | An accepted log call appends its entry and changes nothing else. |
| StorageFacts.LogAllInOrder | assets/js/utils.js:55-64 | After N accepted log calls, the log is the old log followed by the N entries in call order. |
| StorageFacts.LogAllFrame | assets/js/utils.js:55-64 | Log calls never touch the session or any key except the log. |
| StorageFacts.LogActivityRecord | assets/js/utils.js:57-62 | After an accepted log call, the old log is a prefix of the new one, and the last entry decodes to the action, type and clock of the call. |
| StorageFacts.OwnedCounts | assets/js/utils.js:85-89 | Over stored objects that read as homework records, whatever other fields they carry, the `studentId` filter keeps exactly the student's homework. The `completed` filter counts exactly the student's finished homework. |
| StorageFacts.ProgressOfRecords | assets/js/utils.js:83-91 | Over stored objects that read as homework records, progress is 0 without homework and otherwise finished/assigned in percent, rounded half up. |
| StorageFacts.ThreeOfFour | assets/js/utils.js:87-90 | Three of four homework done gives 75. A student with no homework gets 0. |
| StorageFacts.UpdateStudentProgressEffect | assets/js/utils.js:94-103 | Only the first student with the id changes, and only in `progress` (the fresh percentage) and `lastActive` (the call's clock). Every other student and field stays as before. |
| AuthFacts.AdminLoginIff | assets/js/auth.js:8-10 | Admin login succeeds exactly when the stored admin record reads as the given credentials. |
| AuthFacts.AdminLoginEffect | assets/js/auth.js:10-14 | After a successful admin login the admin check passes and the login time is the call's clock. The log gains exactly one entry. The student check and snapshot are unaffected. |
| AuthFacts.DefaultAdminLogsIn | assets/js/auth.js:7-17 | On a fresh browser after `initStorage`, `ielts_teacher`/`admin123` logs in. |
| AuthFacts.StudentLoginOfRecords | assets/js/auth.js:21-30 | Over stored objects that read as students, whatever other fields they carry, login returns the first object in stored order whose username and password both match. With no match it returns null and changes nothing. |
| AuthFacts.DuplicateCredentialsFirstWins | assets/js/auth.js:22 | Example: in a two-student roster where both share credentials, the first one logs in, and a wrong password gets null. |
| AuthFacts.StudentLoginThenCurrent | assets/js/auth.js:20-55 | After a successful student login, the student check passes and `getCurrentStudent()` returns the record login returned. The admin check is unaffected. |
| AuthFacts.LogoutKeepsOtherRole | assets/js/auth.js:58-68 | Logging out one role fails that role's check and leaves the other role's check and data as they were. |
| AuthFacts.ChangeAdminPasswordThenLogin | assets/js/auth.js:71-83 | After a stored admin password change, the admin logs in with the new password, and no longer with the old one when the two differ. |
| AuthFacts.ChangeAdminPasswordRefused | assets/js/auth.js:78-82 | When the browser refuses the new admin record, the reply is still success and the stored record is unchanged. |
| AuthFacts.ChangeStudentPasswordEffect | assets/js/auth.js:86-103 | A successful student password change replaces only the first matching student's password. It leaves the session snapshot as it was. |
| AuthFacts.ChangeStudentPasswordRefused | assets/js/auth.js:98-102 | When the browser refuses the new roster, the reply is still success and the stored roster is unchanged. |

## Left out

- `sendTelegramNotification`: network I/O via `fetch`, outside the storage and auth core.
- `showNotification` and `confirmAction`: DOM and dialog interaction.
- `formatDate`: locale formatting.
- `generateId`: clock and randomness. The project also models ids only as the strings the pages pass in.
- The `IELTSPlatform` constructor, which only calls `initStorage`, and the global singletons `platform` and `auth`: the model calls the operations directly.
- The default `type = 'info'` of `logActivity`: every caller in the core passes a type, so the model always takes one.
- Numbers are integers. Every number the core writes is a millisecond timestamp or a whole percentage, so floating-point documents are not modelled.
- Platform.RoundPercent: rounds the exact quotient. JavaScript computes `completed / total * 100` in floating point first, so a value that is exactly `.5` in exact arithmetic may land just under it (for example 29/200 gives 14.499999999999998 and rounds to 14).
- Json.Text: prints integers in plain decimal. JavaScript switches to exponent notation from 10^21 upwards.
- Redirects: `window.location.href` assignments are returned as `Nav` values; no page load is modelled.
- `sessionStorage` writes are assumed to succeed. Only `localStorage` writes go through the quota oracle `fits`.
- One clock reading per call: `Date.now()`, `toLocaleString()` and `toISOString()` inside one call are taken to describe the same instant.
- JSON text: documents are stored as values. The exact text `JSON.stringify` produces and `JSON.parse` reads back is not modelled; unparsable text is represented only by `Blank` and `Corrupt`.
- `console.error` in `getData` and `saveData`: logging only.
- Json.Prop: reads only plain data fields. Property names built into strings and arrays (`length`, methods) are not modelled, because the core reads only its own field names.
- Operation parameters (usernames, passwords, ids, actions) are strings, as the pages pass them. Other JavaScript argument types are not modelled.
- Platform.Owned: states that every kept element has the student's id and that no more elements come out than go in, but not the order or completeness of the filter over arbitrary JSON. StorageFacts.OwnedCounts proves completeness over stored objects that read as homework records.
- Platform.Completed: states only the upper bound over arbitrary JSON. StorageFacts.OwnedCounts proves the exact count over stored objects that read as homework records.
- Platform.UpdateStudentProgress: its own contract states the frame, the throw cases (roster not searchable, or `calculateProgress` throwing on a hit) and the no-match case. The field values written on a hit are stated by StorageFacts.UpdateStudentProgressEffect only when the progress computes and every write fits; with a refused write, the model leaves the roster unchanged, but no lemma states it.

=== FILE: auth.dfy ===
/** The authentication service `AuthSystem` of assets/js/auth.js: plaintext credential
    checks against the stored records, one session flag per role, and the two
    password-change operations with their tagged replies. */
module Auth {
  import opened Json
  import opened Browser
  import opened Lookup
  import opened Platform

  const AdminLoginAction := "\U{1F510} Admin logged in"
  const StudentLoginAction := "\U{1F464} Student logged in: "
  const AdminPasswordAction := "\U{1F511} Admin password changed"
  const StudentPasswordAction := "\U{1F511} Password changed for student: "
  const Incorrect := "Current password is incorrect"
  const NoStudent := "Student not found"
  const Changed := "Password changed successfully"

  /** The value a session flag holds while its role is logged in. */
  const FlagOn := "true"

  /** `username === adminSettings.username && password === adminSettings.password`. */
  predicate AdminMatches(st: State, username: string, password: string)
  {
    var settings := GetData(st, SettingsKey);
    PropIs(settings, "username", username) && PropIs(settings, "password", password)
  }

  /** `adminLogin(username, password)`: on a credential mismatch it returns false and
      changes nothing. On a match it raises the admin flag, records the login time,
      appends one `security` entry to the activity log and returns true; the student
      session is never touched. The log append throws, after the flag is raised, when
      the stored log is a truthy non-array. */
  function AdminLogin(st: State, username: string, password: string, env: Env): (r: Run<bool>)
    ensures !AdminMatches(st, username, password) ==> r == Done(st, false)
    ensures r.Done? && r.value ==> AdminMatches(st, username, password)
    ensures AdminMatches(st, username, password) ==>
      && r.state.session == st.session.(adminAuthenticated := Some(FlagOn), adminLoginTime := Some(env.isoTime))
      && SameExcept(r.state.local, st.local, ActivitiesKey)
      && (r.Done? <==> Collection(st, ActivitiesKey).Some?)
      && (r.Done? ==> r.value)
  {
    if AdminMatches(st, username, password) then
      var st1 := st.(session := st.session.(adminAuthenticated := Some(FlagOn), adminLoginTime := Some(env.isoTime)));
      var log := LogActivity(st1, AdminLoginAction, "security", env);
      if log.Threw? then Threw(log.state) else Done(log.state, true)
    else
      Done(st, false)
  }

  /** `studentLogin(username, password)`: the first student, in stored order, whose
      username and password both match; on a hit the student flag is raised, the
      record is copied into the session and one `student` entry is logged. With no
      match it returns null and changes nothing. It throws when the roster is a truthy
      non-array or the search reaches a null entry, and, after the session is set,
      when the log cannot be appended to. */
  function StudentLogin(st: State, username: string, password: string, env: Env): (r: Run<Value>)
    ensures Collection(st, StudentsKey).None? ==> r == Threw(st)
    ensures r.Done? && r.value == Null ==> r.state == st
    ensures r.Done? && r.value == Null ==>
      forall j :: 0 <= j < |Collection(st, StudentsKey).value| ==>
        !Matches(Collection(st, StudentsKey).value[j], ByLogin(username, password))
    ensures r.Done? && r.value != Null ==>
      exists i :: FirstHit(Collection(st, StudentsKey).value, ByLogin(username, password), i) &&
        Collection(st, StudentsKey).value[i] == r.value
    ensures r.Done? && r.value != Null ==>
      r.state.session == st.session.(studentAuthenticated := Some(FlagOn), currentStudent := Some(Json(r.value)))
    ensures r.state.session.adminAuthenticated == st.session.adminAuthenticated
    ensures r.state.session.adminLoginTime == st.session.adminLoginTime
    ensures SameExcept(r.state.local, st.local, ActivitiesKey)
    ensures (Collection(st, StudentsKey).Some? &&
             FindFirst(Collection(st, StudentsKey).value, ByLogin(username, password)).Missing?) ==>
      r == Done(st, Null)
    ensures (Collection(st, StudentsKey).Some? &&
             FindFirst(Collection(st, StudentsKey).value, ByLogin(username, password)).Crashed?) ==>
      r == Threw(st)
    ensures Collection(st, StudentsKey).Some? && Collection(st, ActivitiesKey).Some? ==>
      var students := Collection(st, StudentsKey).value;
      forall i :: FirstHit(students, ByLogin(username, password), i) ==> r == Done(r.state, students[i])
    ensures Collection(st, StudentsKey).Some? ==>
      var students := Collection(st, StudentsKey).value;
      forall i :: FirstHit(students, ByLogin(username, password), i) ==>
        var entry := LogEntry(StudentLoginAction + Display(Prop(students[i], "name")), "student", env);
        && (r.Threw? <==> Collection(st, ActivitiesKey).None?)
        && (Collection(st, ActivitiesKey).Some? ==>
              var log := Collection(st, ActivitiesKey).value;
              if env.fits(st.local, ActivitiesKey, Arr(log + [entry]))
              then Collection(r.state, ActivitiesKey) == Some(log + [entry])
              else r.state.local == st.local)
  {
    match Collection(st, StudentsKey)
    case None => Threw(st)
    case Some(students) =>
      var q := ByLogin(username, password);
      FirstHitIsFoundAny(students, q);
      match FindFirst(students, q)
      case Crashed => Threw(st)
      case Missing => Done(st, Null)
      case Found(i) =>
        var student := students[i];
        var st1 := st.(session := st.session.(studentAuthenticated := Some(FlagOn), currentStudent := Some(Json(student))));
        assert Collection(st1, ActivitiesKey) == Collection(st, ActivitiesKey);
        var log := LogActivity(st1, StudentLoginAction + Display(Prop(student, "name")), "student", env);
        if log.Threw? then Threw(log.state) else Done(log.state, student)
  }

  /** `checkAdminAuth()`: true exactly when the admin flag is the string `'true'`;
      otherwise the page is sent to the login page. */
  function CheckAdminAuth(st: State): (r: (bool, Nav))
    ensures r.0 <==> st.session.adminAuthenticated == Some(FlagOn)
    ensures r.1 == Stay <==> r.0
    ensures r.1 != Stay ==> r.1 == Redirect(LoginPage)
  {
    if st.session.adminAuthenticated != Some(FlagOn) then (false, Redirect(LoginPage)) else (true, Stay)
  }

  /** `checkStudentAuth()`: the same test on the student flag. */
  function CheckStudentAuth(st: State): (r: (bool, Nav))
    ensures r.0 <==> st.session.studentAuthenticated == Some(FlagOn)
    ensures r.1 == Stay <==> r.0
    ensures r.1 != Stay ==> r.1 == Redirect(LoginPage)
  {
    if st.session.studentAuthenticated != Some(FlagOn) then (false, Redirect(LoginPage)) else (true, Stay)
  }

  /** `getCurrentStudent()`: the parsed session snapshot, null when none is stored or
      it is the empty string; a snapshot that is not JSON makes `JSON.parse` throw. */
  function GetCurrentStudent(st: State): (r: Run<Value>)
    ensures r.state == st
    ensures r.Threw? <==> st.session.currentStudent == Some(Corrupt)
    ensures r.Done? && r.value != Null ==> st.session.currentStudent == Some(Json(r.value))
    ensures st.session.currentStudent.None? ==> r == Done(st, Null)
    ensures st.session.currentStudent == Some(Blank) ==> r == Done(st, Null)
    ensures forall v :: st.session.currentStudent == Some(Json(v)) ==> r == Done(st, v)
  {
    match st.session.currentStudent
    case None => Done(st, Null)
    case Some(Blank) => Done(st, Null)
    case Some(Corrupt) => Threw(st)
    case Some(Json(v)) => Done(st, v)
  }

  /** `logout(userType)`: `'admin'` clears the admin flag and login time, any other
      argument clears the student flag and snapshot; the other role's keys and the
      persistent store are untouched, and the page goes to the login page. */
  function Logout(st: State, userType: string): (r: (State, Nav))
    ensures r.1 == Redirect(LoginPage)
    ensures r.0.local == st.local
    ensures userType == "admin" ==>
      r.0.session == st.session.(adminAuthenticated := None, adminLoginTime := None)
    ensures userType != "admin" ==>
      r.0.session == st.session.(studentAuthenticated := None, currentStudent := None)
  {
    if userType == "admin" then
      (st.(session := st.session.(adminAuthenticated := None, adminLoginTime := None)), Redirect(LoginPage))
    else
      (st.(session := st.session.(studentAuthenticated := None, currentStudent := None)), Redirect(LoginPage))
  }

  /** `changeAdminPassword(current, next)`: a wrong current password gets
      `{false, 'Current password is incorrect'}` and changes nothing. The right one
      rewrites the admin record with only its password replaced, logs one `security`
      entry and gets `{true, 'Password changed successfully'}`; the session is never
      touched. */
  function ChangeAdminPassword(st: State, current: string, next: string, env: Env): (r: Run<Reply>)
    ensures r.state.session == st.session
    ensures !PropIs(GetData(st, SettingsKey), "password", current) ==> r == Done(st, Reply(false, Incorrect))
    ensures r.Done? && r.value.success ==> PropIs(GetData(st, SettingsKey), "password", current)
    ensures r.Done? ==> r.value.success || r.value.message == Incorrect
    ensures r.Done? && r.value.success ==> r.value.message == Changed
    ensures forall k :: k != SettingsKey && k != ActivitiesKey ==> SameAt(r.state.local, st.local, k)
    ensures PropIs(GetData(st, SettingsKey), "password", current) ==>
      (r.Done? <==> Collection(st, ActivitiesKey).Some?)
    ensures PropIs(GetData(st, SettingsKey), "password", current) && r.Done? ==> r.value == Reply(true, Changed)
    ensures PropIs(GetData(st, SettingsKey), "password", current) && Collection(st, ActivitiesKey).Some? ==>
      var settings := SetProp(GetData(st, SettingsKey), "password", Str(next));
      var mid := if env.fits(st.local, SettingsKey, settings) then st.local[SettingsKey := Json(settings)] else st.local;
      var log, entry := Collection(st, ActivitiesKey).value, LogEntry(AdminPasswordAction, "security", env);
      if env.fits(mid, ActivitiesKey, Arr(log + [entry]))
      then Collection(r.state, ActivitiesKey) == Some(log + [entry])
      else r.state.local == mid
    ensures (&& PropIs(GetData(st, SettingsKey), "password", current)
             && env.fits(st.local, SettingsKey, SetProp(GetData(st, SettingsKey), "password", Str(next)))) ==>
        && PropIs(GetData(r.state, SettingsKey), "password", next)
        && forall f :: f != "password" ==> Prop(GetData(r.state, SettingsKey), f) == Prop(GetData(st, SettingsKey), f)
  {
    var settings := GetData(st, SettingsKey);
    if !PropIs(settings, "password", current) then
      Done(st, Reply(false, Incorrect))
    else
      var w := SaveData(st, SettingsKey, SetProp(settings, "password", Str(next)), env);
      assert Collection(w.state, ActivitiesKey) == Collection(st, ActivitiesKey);
      var log := LogActivity(w.state, AdminPasswordAction, "security", env);
      assert SameAt(log.state.local, w.state.local, SettingsKey);
      if log.Threw? then Threw(log.state) else Done(log.state, Reply(true, Changed))
  }

  /** `changeStudentPassword(id, current, next)`: `'Student not found'` when no student
      has the id, `'Current password is incorrect'` when the first one with the id has
      another password, both changing nothing. Otherwise only that student's password
      is replaced in the roster, one `student` entry is logged, and the session
      (including the snapshot in `currentStudent`) is left as it was. */
  function ChangeStudentPassword(st: State, id: string, current: string, next: string, env: Env): (r: Run<Reply>)
    ensures r.state.session == st.session
    ensures forall k :: k != StudentsKey && k != ActivitiesKey ==> SameAt(r.state.local, st.local, k)
    ensures Collection(st, StudentsKey).None? ==> r == Threw(st)
    ensures Collection(st, StudentsKey).Some? && FindFirst(Collection(st, StudentsKey).value, ById(id)).Missing?
      ==> r == Done(st, Reply(false, NoStudent))
    ensures Collection(st, StudentsKey).Some? && FindFirst(Collection(st, StudentsKey).value, ById(id)).Crashed?
      ==> r == Threw(st)
    ensures r.Done? && !r.value.success ==> r.state == st
    ensures r.Done? && !r.value.success ==> r.value.message in {NoStudent, Incorrect}
    ensures r.Done? && r.value.success ==> r.value.message == Changed
    ensures r.Done? && r.value.success ==>
      exists i :: FirstHit(Collection(st, StudentsKey).value, ById(id), i) &&
        PropIs(Collection(st, StudentsKey).value[i], "password", current)
    ensures Collection(st, StudentsKey).Some? ==>
      var students := Collection(st, StudentsKey).value;
      forall i :: FirstHit(students, ById(id), i) && !PropIs(students[i], "password", current) ==>
        r == Done(st, Reply(false, Incorrect))
    ensures Collection(st, StudentsKey).Some? ==>
      var students := Collection(st, StudentsKey).value;
      forall i :: FirstHit(students, ById(id), i) && PropIs(students[i], "password", current) ==>
        && (r.Done? <==> Collection(st, ActivitiesKey).Some?)
        && (r.Done? ==> r.value == Reply(true, Changed))
    ensures Collection(st, StudentsKey).Some? && Collection(st, ActivitiesKey).Some? ==>
      var students := Collection(st, StudentsKey).value;
      forall i :: FirstHit(students, ById(id), i) && PropIs(students[i], "password", current) ==>
        var roster := Arr(students[i := SetProp(students[i], "password", Str(next))]);
        var mid := if env.fits(st.local, StudentsKey, roster) then st.local[StudentsKey := Json(roster)] else st.local;
        var log := Collection(st, ActivitiesKey).value;
        var entry := LogEntry(StudentPasswordAction + Display(Prop(students[i], "name")), "student", env);
        if env.fits(mid, ActivitiesKey, Arr(log + [entry]))
        then Collection(r.state, ActivitiesKey) == Some(log + [entry])
        else r.state.local == mid
  {
    match Collection(st, StudentsKey)
    case None => Threw(st)
    case Some(students) =>
      match FindFirst(students, ById(id))
      case Crashed => Threw(st)
      case Missing => Done(st, Reply(false, NoStudent))
      case Found(i) =>
        FirstHitIsFound(students, ById(id), i);
        if !PropIs(students[i], "password", current) then
          Done(st, Reply(false, Incorrect))
        else
          var student := SetProp(students[i], "password", Str(next));
          var w := SaveData(st, StudentsKey, Arr(students[i := student]), env);
          assert Collection(w.state, ActivitiesKey) == Collection(st, ActivitiesKey);
          var log := LogActivity(w.state, StudentPasswordAction + Display(Prop(students[i], "name")), "student", env);
          if log.Threw? then Threw(log.state) else Done(log.state, Reply(true, Changed))
  }
}

=== FILE: auth_facts.dfy ===
/** Properties of the auth service that relate several calls: logging in and checking,
    first-match student login, role-independent logout, and logging in after a
    password change. */
module AuthFacts {
  import opened Json
  import opened Browser
  import opened Lookup
  import opened Records
  import opened Platform
  import opened StorageFacts
  import opened Auth

  /** Admin login compares against the stored record field by field: it returns true
      exactly when the record reads as these credentials. */
  lemma AdminLoginIff(st: State, username: string, password: string, env: Env)
    requires Collection(st, ActivitiesKey).Some?
    ensures AdminLogin(st, username, password, env).Done?
    ensures AdminLogin(st, username, password, env).value <==>
      ReadSettings(GetData(st, SettingsKey)) == Some(AdminSettings(username, password))
  {
  }

  /** A successful admin login raises the admin flag, records the login time, appends
      exactly one `security` entry, and leaves the student session as it was. */
  lemma AdminLoginEffect(st: State, username: string, password: string, env: Env)
    requires AdminMatches(st, username, password)
    requires Collection(st, ActivitiesKey).Some?
    requires env.fits(st.local, ActivitiesKey,
      Arr(Collection(st, ActivitiesKey).value + [LogEntry(AdminLoginAction, "security", env)]))
    ensures var r := AdminLogin(st, username, password, env);
      && r == Done(r.state, true)
      && CheckAdminAuth(r.state).0
      && r.state.session.adminLoginTime == Some(env.isoTime)
      && CheckStudentAuth(r.state) == CheckStudentAuth(st)
      && GetCurrentStudent(r.state) == GetCurrentStudent(st).(state := r.state)
      && Collection(r.state, ActivitiesKey) ==
         Some(Collection(st, ActivitiesKey).value + [LogEntry(AdminLoginAction, "security", env)])
  {
    var st1 := st.(session := st.session.(adminAuthenticated := Some(FlagOn), adminLoginTime := Some(env.isoTime)));
    assert Collection(st1, ActivitiesKey) == Collection(st, ActivitiesKey);
  }

  /** On a fresh browser, after `initStorage`, the built-in admin account logs in. */
  lemma DefaultAdminLogsIn(env: Env, env': Env)
    requires Roomy(env)
    ensures var st := InitStorage(State(map[], NoSession), env).state;
      AdminLogin(st, "ielts_teacher", "admin123", env') ==
        Done(AdminLogin(st, "ielts_teacher", "admin123", env').state, true)
  {
    InitStorageFresh(env);
    FreshAdminSettings(env);
    var st := InitStorage(State(map[], NoSession), env).state;
    assert Defaults[5] == (ActivitiesKey, Arr([]));
    assert GetData(st, ActivitiesKey) == Arr([]);
    AdminLoginIff(st, "ielts_teacher", "admin123", env');
  }

  /** `i` is the first student of `ss`, in stored order, with these credentials. */
  ghost predicate FirstLogin(ss: seq<Student>, username: string, password: string, i: int)
  {
    && 0 <= i < |ss|
    && ss[i].username == username && ss[i].password == password
    && forall j :: 0 <= j < i ==> !(ss[j].username == username && ss[j].password == password)
  }

  /** Student login over a roster whose objects read as the students `ss` (whatever
      other fields they carry, such as `progress` and `lastActive`) returns the first
      stored object whose username and password both match, and null, changing
      nothing, when none does. */
  lemma StudentLoginOfRecords(st: State, vs: seq<Value>, ss: seq<Student>, username: string, password: string, env: Env)
    requires GetData(st, StudentsKey) == Arr(vs)
    requires |vs| == |ss| && forall j :: 0 <= j < |vs| ==> ReadStudent(vs[j]) == Some(ss[j])
    requires Collection(st, ActivitiesKey).Some?
    ensures (forall j :: 0 <= j < |ss| ==> !(ss[j].username == username && ss[j].password == password)) ==>
      StudentLogin(st, username, password, env) == Done(st, Null)
    ensures forall i :: FirstLogin(ss, username, password, i) ==>
      StudentLogin(st, username, password, env) == Done(StudentLogin(st, username, password, env).state, vs[i])
  {
    var q := ByLogin(username, password);
    assert forall j :: 0 <= j < |vs| ==> vs[j] != Null && ReadStudent(vs[j]).Some?;
    assert forall j :: 0 <= j < |vs| ==>
      (Matches(vs[j], q) <==> ss[j].username == username && ss[j].password == password);
    if forall j :: 0 <= j < |ss| ==> !(ss[j].username == username && ss[j].password == password) {
      assert !FindFirst(vs, q).Found?;
    }
    assert forall i :: FirstLogin(ss, username, password, i) ==> FirstHit(vs, q, i);
  }

  /** An example roster: two students share credentials, and login returns the first
      of them; a wrong password returns null. */
  lemma DuplicateCredentialsFirstWins(st: State, env: Env)
    requires GetData(st, StudentsKey) == Arr(StudentValues([
      Student("a1", "ali", "pw", "Ali"), Student("b2", "ali", "pw", "Bobur")]))
    requires Collection(st, ActivitiesKey).Some?
    ensures StudentLogin(st, "ali", "pw", env).value == StudentValue(Student("a1", "ali", "pw", "Ali"))
    ensures StudentLogin(st, "ali", "nope", env) == Done(st, Null)
  {
    var ss := [Student("a1", "ali", "pw", "Ali"), Student("b2", "ali", "pw", "Bobur")];
    var vs := StudentValues(ss);
    StudentRoundTrip(ss[0]);
    StudentRoundTrip(ss[1]);
    StudentLoginOfRecords(st, vs, ss, "ali", "pw", env);
    StudentLoginOfRecords(st, vs, ss, "ali", "nope", env);
    assert FirstLogin(ss, "ali", "pw", 0);
  }

  /** After a successful student login the student check passes and
      `getCurrentStudent()` returns the very record login returned; the admin check is
      unaffected. */
  lemma StudentLoginThenCurrent(st: State, username: string, password: string, env: Env)
    requires StudentLogin(st, username, password, env).Done?
    requires StudentLogin(st, username, password, env).value != Null
    ensures var r := StudentLogin(st, username, password, env);
      && CheckStudentAuth(r.state).0
      && GetCurrentStudent(r.state) == Done(r.state, r.value)
      && CheckAdminAuth(r.state) == CheckAdminAuth(st)
  {
  }

  /** Logging out one role ends that role's session and leaves the other role's
      session exactly as it was. */
  lemma LogoutKeepsOtherRole(st: State, userType: string)
    ensures userType == "admin" ==>
      && !CheckAdminAuth(Logout(st, userType).0).0
      && CheckStudentAuth(Logout(st, userType).0) == CheckStudentAuth(st)
      && GetCurrentStudent(Logout(st, userType).0) == GetCurrentStudent(st).(state := Logout(st, userType).0)
    ensures userType != "admin" ==>
      && !CheckStudentAuth(Logout(st, userType).0).0
      && GetCurrentStudent(Logout(st, userType).0) == Done(Logout(st, userType).0, Null)
      && CheckAdminAuth(Logout(st, userType).0) == CheckAdminAuth(st)
      && Logout(st, userType).0.session.adminLoginTime == st.session.adminLoginTime
  {
  }

  /** After a successful admin password change that the browser stored, the admin logs
      in with the new password and no longer with the old one (when they differ); the
      username is unchanged. */
  lemma ChangeAdminPasswordThenLogin(st: State, username: string, current: string, next: string, env: Env, env': Env)
    requires PropIs(GetData(st, SettingsKey), "username", username)
    requires PropIs(GetData(st, SettingsKey), "password", current)
    requires env.fits(st.local, SettingsKey, SetProp(GetData(st, SettingsKey), "password", Str(next)))
    requires ChangeAdminPassword(st, current, next, env).Done?
    ensures var s := ChangeAdminPassword(st, current, next, env).state;
      && ChangeAdminPassword(st, current, next, env).value == Reply(true, Changed)
      && AdminLogin(s, username, next, env') == Done(AdminLogin(s, username, next, env').state, true)
      && (current != next ==> AdminLogin(s, username, current, env') == Done(s, false))
  {
    var r := ChangeAdminPassword(st, current, next, env);
    var s := r.state;
    assert Prop(GetData(s, SettingsKey), "username") == Prop(GetData(st, SettingsKey), "username");
    assert AdminMatches(s, username, next);
    assert Collection(s, ActivitiesKey).Some?;
  }

  /** When the browser refuses to store the new admin record, `saveData` returns false
      unnoticed: the reply is still success, while the stored password stays the old
      one. */
  lemma ChangeAdminPasswordRefused(st: State, current: string, next: string, env: Env)
    requires PropIs(GetData(st, SettingsKey), "password", current)
    requires Collection(st, ActivitiesKey).Some?
    requires !env.fits(st.local, SettingsKey, SetProp(GetData(st, SettingsKey), "password", Str(next)))
    ensures var r := ChangeAdminPassword(st, current, next, env);
      && r == Done(r.state, Reply(true, Changed))
      && GetData(r.state, SettingsKey) == GetData(st, SettingsKey)
  {
  }

  /** The same for a student: the reply is success, while the roster keeps the old
      password. */
  lemma ChangeStudentPasswordRefused(st: State, id: string, current: string, next: string, env: Env, i: nat)
    requires Collection(st, StudentsKey).Some?
    requires FirstHit(Collection(st, StudentsKey).value, ById(id), i)
    requires PropIs(Collection(st, StudentsKey).value[i], "password", current)
    requires Collection(st, ActivitiesKey).Some?
    requires var students := Collection(st, StudentsKey).value;
      !env.fits(st.local, StudentsKey, Arr(students[i := SetProp(students[i], "password", Str(next))]))
    ensures var r := ChangeStudentPassword(st, id, current, next, env);
      && r == Done(r.state, Reply(true, Changed))
      && Collection(r.state, StudentsKey) == Collection(st, StudentsKey)
  {
    FirstHitIsFound(Collection(st, StudentsKey).value, ById(id), i);
  }

  /** A successful student password change replaces only the first matching student's
      password in the roster, and leaves the session snapshot as it was, so a
      snapshot of that student keeps the old password. */
  lemma ChangeStudentPasswordEffect(st: State, id: string, current: string, next: string, env: Env, i: nat)
    requires Collection(st, StudentsKey).Some?
    requires FirstHit(Collection(st, StudentsKey).value, ById(id), i)
    requires PropIs(Collection(st, StudentsKey).value[i], "password", current)
    requires Collection(st, ActivitiesKey).Some?
    requires Roomy(env)
    ensures var r := ChangeStudentPassword(st, id, current, next, env);
      var students := Collection(st, StudentsKey).value;
      && r == Done(r.state, Reply(true, Changed))
      && Collection(r.state, StudentsKey) == Some(students[i := SetProp(students[i], "password", Str(next))])
      && GetCurrentStudent(r.state) == GetCurrentStudent(st).(state := r.state)
  {
    var students := Collection(st, StudentsKey).value;
    FirstHitIsFound(students, ById(id), i);
    var w := SaveData(st, StudentsKey, Arr(students[i := SetProp(students[i], "password", Str(next))]), env);
    assert Collection(w.state, ActivitiesKey) == Collection(st, ActivitiesKey);
  }
}

=== FILE: browser.dfy ===
/** The browser state the platform runs on: the persistent `localStorage` map, the
    four `sessionStorage` keys the auth layer uses, and the environment of one call
    (clock readings and whether the browser accepts a write). Every operation of the
    platform is a pure transition from one `State` to a `Run`. */
module Browser {
  import opened Json

  /** The text stored under one `localStorage` key, classified by what `JSON.parse`
      makes of it: a document, the empty string (falsy, and not JSON), or any other
      text that is not JSON. */
  datatype Entry = Json(value: Value) | Blank | Corrupt

  /** The session keys of the auth layer; `None` is a key that is not set. */
  datatype Session = Session(
    adminAuthenticated: Option<string>,
    adminLoginTime: Option<string>,
    studentAuthenticated: Option<string>,
    currentStudent: Option<Entry>)

  /** `localStorage` (which also holds the activity log under `adminActivities`) and
      `sessionStorage`. */
  datatype State = State(local: map<string, Entry>, session: Session)

  /** What one call observes of the outside world: `Date.now()`, the
      `toLocaleString()` and `toISOString()` renderings of the same instant, and the
      browser's quota decision for writing a document under a key of a given store. */
  datatype Env = Env(
    now: int,
    localeTime: string,
    isoTime: string,
    fits: (map<string, Entry>, string, Value) -> bool)

  /** A call either returns a value or throws a `TypeError`/`SyntaxError`/quota error;
      in both cases the writes it made before returning or throwing persist. */
  datatype Run<+T> = Done(state: State, value: T) | Threw(state: State)

  /** Where the page goes after a call: nowhere, or to another page. */
  datatype Nav = Stay | Redirect(page: string)

  /** The `{ success, message }` records the password operations return. */
  datatype Reply = Reply(success: bool, message: string)

  const StudentsKey := "students"
  const TestsKey := "tests"
  const LessonsKey := "lessons"
  const HomeworksKey := "homeworks"
  const TestResultsKey := "testResults"
  const ActivitiesKey := "adminActivities"
  const TelegramKey := "telegramConfig"
  const SettingsKey := "adminSettings"
  const LoginPage := "login.html"

  /** An empty session: nobody is logged in. */
  const NoSession := Session(None, None, None, None)

  /** `!localStorage.getItem(key)`: the key is unset or holds the empty string. */
  predicate Unset(local: map<string, Entry>, key: string)
  {
    key !in local || local[key] == Blank
  }

  /** Two stores agree on `key`: both lack it, or both hold the same entry there. */
  predicate SameAt(a: map<string, Entry>, b: map<string, Entry>, key: string)
  {
    (key in a <==> key in b) && (key in a ==> a[key] == b[key])
  }

  /** Every key other than `key` is the same in both stores. */
  ghost predicate SameExcept(a: map<string, Entry>, b: map<string, Entry>, key: string)
  {
    forall k :: k != key ==> SameAt(a, b, k)
  }

  /** The browser accepts every write (there is room for anything). */
  ghost predicate Roomy(env: Env)
  {
    forall m, k, v :: env.fits(m, k, v)
  }
}

=== FILE: email.dfy ===
/** `validateEmail` of assets/js/utils.js: the test `/^[^\s@]+@[^\s@]+\.[^\s@]+$/`. */
module Email {

  /** `\s` in a JavaScript regular expression: the ECMAScript white-space and
      line-terminator code points (tab, line feed, vertical tab, form feed, carriage
      return, the space separators of Unicode category Zs, the line and paragraph
      separators, and the byte-order mark). */
  predicate IsSpace(c: char)
  {
    || c == '\t' || c == '\n' || c == '\U{000B}' || c == '\U{000C}' || c == '\r'
    || c == ' ' || c == '\U{00A0}' || c == '\U{1680}' || ('\U{2000}' <= c <= '\U{200A}')
    || c == '\U{2028}' || c == '\U{2029}' || c == '\U{202F}' || c == '\U{205F}'
    || c == '\U{3000}' || c == '\U{FEFF}'
  }

  /** The class `[^\s@]`. */
  predicate Plain(c: char)
  {
    !IsSpace(c) && c != '@'
  }

  /** `[^\s@]+`. */
  ghost predicate PlainRun(s: string)
  {
    |s| > 0 && forall i :: 0 <= i < |s| ==> Plain(s[i])
  }

  /** The pattern matches the whole of `s`: an `@` at `p` and a `.` at `q` cut `s` into
      three non-empty runs of `[^\s@]`. */
  ghost predicate MatchesPattern(s: string)
  {
    exists p, q ::
      && 0 < p && p + 1 < q && q + 1 < |s|
      && s[p] == '@' && s[q] == '.'
      && PlainRun(s[..p]) && PlainRun(s[p + 1..q]) && PlainRun(s[q + 1..])
  }

  /** The same language described by its properties: exactly one `@`, not at the start;
      no white space; and after the `@` a domain holding a `.` that is neither its first
      nor its last character. */
  ghost predicate EmailShape(s: string)
  {
    && (forall i :: 0 <= i < |s| ==> !IsSpace(s[i]))
    && exists p ::
      && 0 < p < |s| && s[p] == '@'
      && (forall j :: 0 <= j < |s| && j != p ==> s[j] != '@')
      && exists q :: p + 1 < q < |s| - 1 && s[q] == '.'
  }

  /** `validateEmail(email)`: one left-to-right scan that remembers the `@` and the
      first `.` at least two places after it. */
  method ValidateEmail(email: string) returns (ok: bool)
    ensures ok <==> MatchesPattern(email)
    ensures ok <==> EmailShape(email)
  {
    var at, dot, i := -1, -1, 0;
    while i < |email|
      invariant 0 <= i <= |email|
      invariant forall j :: 0 <= j < i ==> !IsSpace(email[j])
      invariant at == -1 ==> forall j :: 0 <= j < i ==> email[j] != '@'
      invariant at != -1 ==> 0 <= at < i && email[at] == '@'
      invariant at != -1 ==> forall j :: 0 <= j < i && j != at ==> email[j] != '@'
      invariant dot != -1 ==> at != -1 && at + 2 <= dot < i && email[dot] == '.'
      invariant dot != -1 ==> forall j :: at + 2 <= j < dot ==> email[j] != '.'
      invariant at != -1 && dot == -1 ==> forall j :: at + 2 <= j < i ==> email[j] != '.'
    {
      var c := email[i];
      if IsSpace(c) {
        PatternIsShape(email);
        return false;
      }
      if c == '@' {
        if at != -1 {
          PatternIsShape(email);
          return false;
        }
        at := i;
      } else if c == '.' && at != -1 && at + 2 <= i && dot == -1 {
        dot := i;
      }
      i := i + 1;
    }
    ok := 0 < at && dot != -1 && dot + 1 < |email|;
    PatternIsShape(email);
    if ok {
      Witness(email, at, dot);
    }
  }

  /** A string with no white space, a single `@` at `p > 0` and a `.` at `q` with at
      least one character on each side inside the domain matches the pattern. */
  lemma Witness(s: string, p: int, q: int)
    requires 0 < p && p + 1 < q && q + 1 < |s| && s[p] == '@' && s[q] == '.'
    requires forall j :: 0 <= j < |s| ==> !IsSpace(s[j])
    requires forall j :: 0 <= j < |s| && j != p ==> s[j] != '@'
    ensures MatchesPattern(s)
  {
    assert forall j :: 0 <= j < p ==> s[..p][j] == s[j];
    assert forall j :: p < j < q ==> s[p + 1..q][j - p - 1] == s[j];
    assert forall j :: q < j < |s| ==> s[q + 1..][j - q - 1] == s[j];
    assert PlainRun(s[..p]) && PlainRun(s[p + 1..q]) && PlainRun(s[q + 1..]);
  }

  /** Every character of a match is a `[^\s@]` except the one `@`. */
  lemma PatternImpliesShape(s: string)
    requires MatchesPattern(s)
    ensures EmailShape(s)
  {
    var p, q :| && 0 < p && p + 1 < q && q + 1 < |s|
                && s[p] == '@' && s[q] == '.'
                && PlainRun(s[..p]) && PlainRun(s[p + 1..q]) && PlainRun(s[q + 1..]);
    forall j | 0 <= j < |s|
      ensures !IsSpace(s[j]) && (j != p ==> s[j] != '@')
    {
      if j < p {
        assert s[..p][j] == s[j];
      } else if p < j < q {
        assert s[p + 1..q][j - p - 1] == s[j];
      } else if q < j {
        assert s[q + 1..][j - q - 1] == s[j];
      }
    }
  }

  /** The pattern and the description in words accept the same strings. */
  lemma PatternIsShape(s: string)
    ensures MatchesPattern(s) <==> EmailShape(s)
  {
    if MatchesPattern(s) {
      PatternImpliesShape(s);
    }
    if EmailShape(s) {
      var p :| && 0 < p < |s| && s[p] == '@'
               && (forall j :: 0 <= j < |s| && j != p ==> s[j] != '@')
               && exists q :: p + 1 < q < |s| - 1 && s[q] == '.';
      var q :| p + 1 < q < |s| - 1 && s[q] == '.';
      Witness(s, p, q);
    }
  }
}

=== FILE: json.dfy ===
/** Parsed JSON values as the platform's JavaScript sees them after `JSON.parse`,
    with the few pieces of JavaScript semantics the storage and auth layers rely on:
    truthiness, property access and string conversion in template literals. */
module Json {

  /** `undefined` (None) or a defined value (Some). */
  datatype Option<+T> = None | Some(value: T)

  /** A JSON document. Numbers are integers: every number the platform writes is a
      millisecond timestamp or a whole percentage. */
  datatype Value =
    | Null
    | Bool(b: bool)
    | Num(n: int)
    | Str(s: string)
    | Arr(items: seq<Value>)
    | Obj(fields: map<string, Value>)

  /** JavaScript truthiness. JSON has no `undefined` or `NaN`, so the falsy values are
      `null`, `false`, `0` and the empty string. */
  predicate Truthy(v: Value)
  {
    match v
    case Null => false
    case Bool(b) => b
    case Num(n) => n != 0
    case Str(s) => s != ""
    case Arr(_) => true
    case Obj(_) => true
  }

  /** `v.name` for a property name that is not built into strings or arrays
      (`id`, `username`, `password`, `name`, `studentId`, `completed`, ...):
      the field of an object, `undefined` for every other value. Reading a property
      of `null` throws; callers rule that case out before calling. */
  function Prop(v: Value, name: string): (r: Option<Value>)
    ensures r.Some? <==> v.Obj? && name in v.fields
    ensures r.Some? ==> r.value == v.fields[name]
  {
    if v.Obj? && name in v.fields then Some(v.fields[name]) else None
  }

  /** `v.name === s` for a string `s`; strict equality never converts types. */
  predicate PropIs(v: Value, name: string, s: string)
  {
    Prop(v, name) == Some(Str(s))
  }

  /** `v.name` used as a condition: undefined is falsy. */
  predicate PropTruthy(v: Value, name: string)
  {
    Prop(v, name).Some? && Truthy(Prop(v, name).value)
  }

  /** `v` with property `name` set to `x` (assignment to a field of an object). */
  function SetProp(v: Value, name: string, x: Value): (r: Value)
    requires v.Obj?
    ensures r.Obj? && Prop(r, name) == Some(x)
    ensures forall k :: k != name ==> Prop(r, k) == Prop(v, k)
  {
    Obj(v.fields[name := x])
  }

  /** Decimal digits of a natural number, most significant first. */
  function NatText(n: nat): (r: string)
    ensures |r| > 0
    ensures forall i :: 0 <= i < |r| ==> '0' <= r[i] <= '9'
    decreases n
  {
    var d := [(('0' as int) + n % 10) as char];
    if n < 10 then d else NatText(n / 10) + d
  }

  /** `String(n)` for an integer. */
  function IntText(n: int): string
  {
    if n < 0 then "-" + NatText(-n) else NatText(n)
  }

  /** `${x}` in a template literal, where `x` is a property read that may be undefined. */
  function Display(x: Option<Value>): string
  {
    match x
    case None => "undefined"
    case Some(v) => Text(v)
  }

  /** `String(v)`: arrays join their elements with commas, turning null into the empty
      string; every object prints as `[object Object]`. */
  function Text(v: Value): string
    decreases v, 1
  {
    match v
    case Null => "null"
    case Bool(b) => if b then "true" else "false"
    case Num(n) => IntText(n)
    case Str(s) => s
    case Arr(items) => Join(v, items)
    case Obj(_) => "[object Object]"
  }

  /** Comma-joined `String` of the elements of `whole`'s suffix `items`. */
  function Join(ghost whole: Value, items: seq<Value>): string
    requires forall i :: 0 <= i < |items| ==> items[i] < whole
    decreases whole, 0, |items|
  {
    if |items| == 0 then ""
    else
      var head := if items[0] == Null then "" else Text(items[0]);
      if |items| == 1 then head else head + "," + Join(whole, items[1..])
  }
}

=== FILE: lookup.dfy ===
/** `Array.prototype.find` over a stored collection, for the two searches the platform
    makes: by `id` and by `username`/`password`. Both callbacks read a property of the
    element first, so reaching a `null` element throws. */
module Lookup {
  import opened Json

  /** `s => s.id === id` or `s => s.username === username && s.password === password`. */
  datatype Query = ById(id: string) | ByLogin(username: string, password: string)

  predicate Matches(v: Value, q: Query)
  {
    match q
    case ById(id) => PropIs(v, "id", id)
    case ByLogin(u, p) => PropIs(v, "username", u) && PropIs(v, "password", p)
  }

  /** The outcome of `find`: the index of the element it returns, `undefined`, or a
      `TypeError` from reading a property of `null`. */
  datatype Search = Found(index: nat) | Missing | Crashed

  /** `i` is where `find` stops with a hit: element `i` matches, and every element
      before it is a non-null miss. */
  ghost predicate FirstHit(items: seq<Value>, q: Query, i: int)
  {
    && 0 <= i < |items|
    && Matches(items[i], q)
    && forall j :: 0 <= j < i ==> items[j] != Null && !Matches(items[j], q)
  }

  function FindFirst(items: seq<Value>, q: Query): (r: Search)
    ensures r.Found? ==> FirstHit(items, q, r.index)
    ensures r.Missing? ==> forall j :: 0 <= j < |items| ==> items[j] != Null && !Matches(items[j], q)
    ensures r.Crashed? ==>
      exists j :: 0 <= j < |items| && items[j] == Null &&
        forall k :: 0 <= k < j ==> !Matches(items[k], q)
  {
    if |items| == 0 then Missing
    else if items[0] == Null then Crashed
    else if Matches(items[0], q) then Found(0)
    else
      match FindFirst(items[1..], q)
      case Found(i) => Found(i + 1)
      case Missing => Missing
      case Crashed => Crashed
  }

  /** The index `find` stops at is the only first hit. */
  lemma FirstHitIsFound(items: seq<Value>, q: Query, i: nat)
    requires FindFirst(items, q) == Found(i)
    ensures forall j :: FirstHit(items, q, j) ==> j == i
  {
    forall j | FirstHit(items, q, j)
      ensures j == i
    {
      if j < i {
        assert false;
      } else if i < j {
        assert false;
      }
    }
  }

  /** Whatever `find` returns, a first hit is where it stops. */
  lemma FirstHitIsFoundAny(items: seq<Value>, q: Query)
    ensures forall i :: FirstHit(items, q, i) ==> FindFirst(items, q) == Found(i)
  {
    forall i | FirstHit(items, q, i)
      ensures FindFirst(items, q) == Found(i)
    {
      match FindFirst(items, q)
      case Found(k) => FirstHitIsFound(items, q, k);
      case Missing =>
      case Crashed =>
    }
  }
}

=== FILE: platform.dfy ===
/** The storage facade `IELTSPlatform` of assets/js/utils.js: default initialisation,
    fail-soft reads, writes, the activity log and the derived progress field. */
module Platform {
  import opened Json
  import opened Browser
  import opened Lookup
  import opened Records

  /** The admin record `initStorage` writes when none is stored. */
  const AdminDefaults := SettingsValue(AdminSettings("ielts_teacher", "admin123"))

  /** The collections `initStorage` fills, in the order it visits them. */
  const Defaults: seq<(string, Value)> := [
    (StudentsKey, Arr([])),
    (TestsKey, Arr([])),
    (LessonsKey, Arr([])),
    (HomeworksKey, Arr([])),
    (TestResultsKey, Arr([])),
    (ActivitiesKey, Arr([])),
    (TelegramKey, Obj(map[])),
    (SettingsKey, AdminDefaults)
  ]

  ghost predicate DistinctKeys(d: seq<(string, Value)>)
  {
    forall i, j :: 0 <= i < j < |d| ==> d[i].0 != d[j].0
  }

  ghost predicate Listed(d: seq<(string, Value)>, key: string)
  {
    exists i :: 0 <= i < |d| && d[i].0 == key
  }

  /** `local` holds at `key` the default `d` lists for it. */
  ghost predicate HoldsDefault(local: map<string, Entry>, d: seq<(string, Value)>, key: string)
  {
    key in local && exists i :: 0 <= i < |d| && d[i].0 == key && local[key] == Json(d[i].1)
  }

  /** Every key of `local` is as in `before` or holds its default from `d`. */
  ghost predicate OnlyDefaults(local: map<string, Entry>, before: map<string, Entry>, d: seq<(string, Value)>)
  {
    forall k :: SameAt(local, before, k) || HoldsDefault(local, d, k)
  }

  /** The loop of `initStorage` over the remaining defaults `d`: a key that is unset or
      empty gets its default, any other key is left alone, and a write the browser
      refuses throws out of the loop. */
  function InitFrom(st: State, d: seq<(string, Value)>, env: Env): (r: Run<()>)
    ensures r.state.session == st.session
    ensures forall k :: !Unset(st.local, k) ==> SameAt(r.state.local, st.local, k)
    ensures forall k :: !Listed(d, k) ==> SameAt(r.state.local, st.local, k)
    ensures r.Done? ==> forall i :: 0 <= i < |d| ==> !Unset(r.state.local, d[i].0)
    ensures r.Done? && DistinctKeys(d) ==>
      forall i :: 0 <= i < |d| && Unset(st.local, d[i].0) ==>
        d[i].0 in r.state.local && r.state.local[d[i].0] == Json(d[i].1)
    ensures r.Threw? ==> exists i :: 0 <= i < |d| && Unset(st.local, d[i].0)
    ensures r.Threw? ==> exists i, m :: 0 <= i < |d| && Unset(st.local, d[i].0) && !env.fits(m, d[i].0, d[i].1)
    ensures OnlyDefaults(r.state.local, st.local, d)
    ensures (forall i :: 0 <= i < |d| ==> !Unset(st.local, d[i].0)) ==> r == Done(st, ())
    decreases |d|
  {
    if |d| == 0 then Done(st, ())
    else
      var key := d[0].0;
      if !Unset(st.local, key) then
        var r := InitFrom(st, d[1..], env);
        assert forall k :: !Listed(d[1..], k) && k != key ==> !Listed(d, k);
        assert forall i :: 1 <= i < |d| ==> d[i] == d[1..][i - 1];
        assert forall k :: HoldsDefault(r.state.local, d[1..], k) ==> HoldsDefault(r.state.local, d, k);
        r
      else if env.fits(st.local, key, d[0].1) then
        var st' := st.(local := st.local[key := Json(d[0].1)]);
        var r := InitFrom(st', d[1..], env);
        assert forall k :: !Listed(d, k) ==> k != key && !Listed(d[1..], k);
        assert forall k :: k != key ==> SameAt(st'.local, st.local, k) && (Unset(st'.local, k) <==> Unset(st.local, k));
        assert !Unset(st'.local, key);
        assert SameAt(r.state.local, st'.local, key);
        assert forall i :: 1 <= i < |d| ==> d[i] == d[1..][i - 1];
        assert HoldsDefault(r.state.local, d, key);
        assert forall k :: HoldsDefault(r.state.local, d[1..], k) ==> HoldsDefault(r.state.local, d, k);
        r
      else
        Threw(st)
  }

  /** `initStorage()`: every default collection that is unset or empty gets its
      default; every stored entry that is not empty, and every other key, stays as it
      was. It throws only when a default has to be written and the browser refuses. */
  function InitStorage(st: State, env: Env): (r: Run<()>)
    ensures r.state.session == st.session
    ensures forall k :: !Unset(st.local, k) ==> SameAt(r.state.local, st.local, k)
    ensures forall k :: !Listed(Defaults, k) ==> SameAt(r.state.local, st.local, k)
    ensures r.Done? ==> forall i :: 0 <= i < |Defaults| ==> !Unset(r.state.local, Defaults[i].0)
    ensures r.Done? ==>
      forall i :: 0 <= i < |Defaults| && Unset(st.local, Defaults[i].0) ==>
        Defaults[i].0 in r.state.local && r.state.local[Defaults[i].0] == Json(Defaults[i].1)
    ensures r.Done? && Unset(st.local, SettingsKey) ==>
      SettingsKey in r.state.local && r.state.local[SettingsKey] == Json(AdminDefaults)
    ensures r.Threw? ==> exists i :: 0 <= i < |Defaults| && Unset(st.local, Defaults[i].0)
    ensures r.Threw? ==>
      exists i, m :: 0 <= i < |Defaults| && Unset(st.local, Defaults[i].0) && !env.fits(m, Defaults[i].0, Defaults[i].1)
    ensures OnlyDefaults(r.state.local, st.local, Defaults)
    ensures Roomy(env) ==> r.Done?
  {
    assert DistinctKeys(Defaults);
    var r := InitFrom(st, Defaults, env);
    assert Defaults[7] == (SettingsKey, AdminDefaults);
    assert Roomy(env) ==> r.Done? by {
      if Roomy(env) { InitFromRoomy(st, Defaults, env); }
    }
    r
  }

  lemma {:induction false} InitFromRoomy(st: State, d: seq<(string, Value)>, env: Env)
    requires Roomy(env)
    ensures InitFrom(st, d, env).Done?
    decreases |d|
  {
    if |d| > 0 {
      var key := d[0].0;
      if !Unset(st.local, key) {
        InitFromRoomy(st, d[1..], env);
      } else {
        assert env.fits(st.local, key, d[0].1);
        InitFromRoomy(st.(local := st.local[key := Json(d[0].1)]), d[1..], env);
      }
    }
  }

  /** A key holding a document that is truthy once parsed. */
  predicate HoldsTruthy(local: map<string, Entry>, key: string)
  {
    key in local && local[key].Json? && Truthy(local[key].value)
  }

  /** `getData(key)`: the parsed document, or `[]` when the key is unset, holds text
      that is not JSON, or parses to a falsy value. It never throws and never returns
      a falsy value. */
  function GetData(st: State, key: string): (r: Value)
    ensures Truthy(r)
    ensures HoldsTruthy(st.local, key) ==> r == st.local[key].value
    ensures !HoldsTruthy(st.local, key) ==> r == Arr([])
  {
    if HoldsTruthy(st.local, key) then st.local[key].value else Arr([])
  }

  /** The elements a collection offers to array methods (`find`, `filter`, `push`),
      or `None` when `getData` returns a truthy value that is not an array, on which
      those calls throw. */
  function Collection(st: State, key: string): (r: Option<seq<Value>>)
    ensures r.Some? <==> GetData(st, key).Arr?
    ensures r.Some? ==> GetData(st, key) == Arr(r.value)
  {
    match GetData(st, key)
    case Arr(items) => Some(items)
    case _ => None
  }

  /** `saveData(key, data)`: replaces the entry at `key` with `data` and returns true,
      or returns false and changes nothing when the browser refuses the write. It
      never throws. */
  function SaveData(st: State, key: string, data: Value, env: Env): (r: Run<bool>)
    ensures r.Done?
    ensures r.state.session == st.session
    ensures SameExcept(r.state.local, st.local, key)
    ensures r.value ==> key in r.state.local && r.state.local[key] == Json(data)
    ensures !r.value ==> r.state == st
    ensures r.value <==> env.fits(st.local, key, data)
  {
    if env.fits(st.local, key, data) then
      Done(st.(local := st.local[key := Json(data)]), true)
    else
      Done(st, false)
  }

  /** The record `logActivity` appends. */
  function LogEntry(action: string, kind: string, env: Env): (r: Value)
    ensures ReadActivity(r) == Some(Activity(action, kind, env.localeTime, env.now))
    ensures PropIs(r, "action", action) && PropIs(r, "type", kind)
  {
    ActivityValue(Activity(action, kind, env.localeTime, env.now))
  }

  /** `logActivity(action, type)`: read the log, push one entry, write the log back.
      It throws, changing nothing, when the stored log is a truthy non-array. When the
      write is accepted the log is the old one with exactly the new entry appended;
      when it is refused nothing changes. Nothing but the log key is ever touched. */
  function LogActivity(st: State, action: string, kind: string, env: Env): (r: Run<()>)
    ensures r.Threw? <==> Collection(st, ActivitiesKey).None?
    ensures r.Threw? ==> r.state == st
    ensures r.state.session == st.session
    ensures SameExcept(r.state.local, st.local, ActivitiesKey)
    ensures r.Done? ==>
      var log := Collection(st, ActivitiesKey).value;
      if env.fits(st.local, ActivitiesKey, Arr(log + [LogEntry(action, kind, env)]))
      then Collection(r.state, ActivitiesKey) == Some(log + [LogEntry(action, kind, env)])
      else r.state == st
  {
    match Collection(st, ActivitiesKey)
    case None => Threw(st)
    case Some(log) =>
      var w := SaveData(st, ActivitiesKey, Arr(log + [LogEntry(action, kind, env)]), env);
      Done(w.state, ())
  }

  /** `Math.round(100 * c / n)` computed exactly: the percentage rounded half up. */
  function RoundPercent(c: nat, n: nat): (r: int)
    requires c <= n && 0 < n
    ensures 0 <= r <= 100
    ensures 2 * n * r <= 200 * c + n < 2 * n * r + 2 * n
  {
    var r := (200 * c + n) / (2 * n);
    DivBounds(200 * c + n, 2 * n, r);
    assert r <= 100 by {
      if r > 100 {
        assert 2 * n * r >= 2 * n * 101 by { MulMono(2 * n, 101, r); }
      }
    }
    r
  }

  lemma DivBounds(a: nat, b: nat, q: int)
    requires 0 < b && q == a / b
    ensures 0 <= q && b * q <= a < b * q + b
  {
  }

  lemma MulMono(k: nat, x: int, y: int)
    requires x <= y
    ensures k * x <= k * y
  {
  }

  /** `homeworks.filter(h => h.studentId === id)`. */
  function Owned(hws: seq<Value>, id: string): (r: seq<Value>)
    ensures |r| <= |hws|
    ensures forall j :: 0 <= j < |r| ==> PropIs(r[j], "studentId", id)
  {
    if |hws| == 0 then []
    else
      var rest := Owned(hws[1..], id);
      if PropIs(hws[0], "studentId", id) then [hws[0]] + rest else rest
  }

  /** `hws.filter(h => h.completed).length`. */
  function Completed(hws: seq<Value>): (r: nat)
    ensures r <= |hws|
  {
    if |hws| == 0 then 0
    else (if PropTruthy(hws[0], "completed") then 1 else 0) + Completed(hws[1..])
  }

  /** `calculateProgress(id)`: 0 when the student has no homework, otherwise the
      completed share in percent rounded half up, always within 0..100. It throws when
      the homework collection is a truthy non-array or holds a `null`, which the
      filter callback dereferences. It writes nothing. */
  function CalculateProgress(st: State, id: string): (r: Run<int>)
    ensures r.state == st
    ensures r.Threw? <==> Collection(st, HomeworksKey).None? || Null in Collection(st, HomeworksKey).value
    ensures r.Done? ==> 0 <= r.value <= 100
    ensures r.Done? ==>
      var mine := Owned(Collection(st, HomeworksKey).value, id);
      if |mine| == 0 then r.value == 0
      else
        var n, c := |mine|, Completed(mine);
        2 * n * r.value <= 200 * c + n < 2 * n * r.value + 2 * n
  {
    match Collection(st, HomeworksKey)
    case None => Threw(st)
    case Some(hws) =>
      if Null in hws then Threw(st)
      else
        var mine := Owned(hws, id);
        if |mine| == 0 then Done(st, 0)
        else Done(st, RoundPercent(Completed(mine), |mine|))
  }

  /** `updateStudentProgress(id)`: the first student with that id gets a fresh
      `progress` and `lastActive`; with no such student nothing changes. It throws,
      writing nothing, when the students or homework collection cannot be searched. */
  function UpdateStudentProgress(st: State, id: string, env: Env): (r: Run<()>)
    ensures r.state.session == st.session
    ensures SameExcept(r.state.local, st.local, StudentsKey)
    ensures r.Threw? ==> r.state == st
    ensures Collection(st, StudentsKey).None? ==> r == Threw(st)
    ensures Collection(st, StudentsKey).Some? && FindFirst(Collection(st, StudentsKey).value, ById(id)).Crashed?
      ==> r == Threw(st)
    ensures Collection(st, StudentsKey).Some? && FindFirst(Collection(st, StudentsKey).value, ById(id)).Missing?
      ==> r == Done(st, ())
    ensures (&& Collection(st, StudentsKey).Some?
             && FindFirst(Collection(st, StudentsKey).value, ById(id)).Found?
             && CalculateProgress(st, id).Threw?) ==> r == Threw(st)
  {
    match Collection(st, StudentsKey)
    case None => Threw(st)
    case Some(students) =>
      match FindFirst(students, ById(id))
      case Crashed => Threw(st)
      case Missing => Done(st, ())
      case Found(i) =>
        var p := CalculateProgress(st, id);
        if p.Threw? then Threw(st)
        else
          var s := SetProp(SetProp(students[i], "progress", Num(p.value)), "lastActive", Str(env.isoTime));
          var w := SaveData(st, StudentsKey, Arr(students[i := s]), env);
          Done(w.state, ())
  }
}

=== FILE: records.dfy ===
/** The records the platform keeps in its collections, as typed views of the JSON
    objects it stores. The code itself works on untyped objects, so each record comes
    with its encoding as an object and a decoding that fails on objects lacking one of
    the fields. */
module Records {
  import opened Json

  /** The singleton `adminSettings` record. */
  datatype AdminSettings = AdminSettings(username: string, password: string)

  /** One entry of the `adminActivities` log. */
  datatype Activity = Activity(action: string, kind: string, time: string, timestamp: int)

  /** The fields of a student the storage and auth layers read. */
  datatype Student = Student(id: string, username: string, password: string, name: string)

  /** The fields of a homework record the progress computation reads. */
  datatype Homework = Homework(studentId: string, completed: bool)

  /** `v.name` when it is a string. */
  function StrProp(v: Value, name: string): (r: Option<string>)
    ensures r.Some? <==> Prop(v, name).Some? && Prop(v, name).value.Str?
    ensures r.Some? ==> PropIs(v, name, r.value)
  {
    match Prop(v, name)
    case Some(Str(s)) => Some(s)
    case _ => None
  }

  function SettingsValue(a: AdminSettings): Value
  {
    Obj(map["username" := Str(a.username), "password" := Str(a.password)])
  }

  function ReadSettings(v: Value): (r: Option<AdminSettings>)
    ensures r.Some? ==> PropIs(v, "username", r.value.username) && PropIs(v, "password", r.value.password)
  {
    match (StrProp(v, "username"), StrProp(v, "password"))
    case (Some(u), Some(p)) => Some(AdminSettings(u, p))
    case _ => None
  }

  function ActivityValue(a: Activity): Value
  {
    Obj(map["action" := Str(a.action), "type" := Str(a.kind), "time" := Str(a.time),
            "timestamp" := Num(a.timestamp)])
  }

  function ReadActivity(v: Value): Option<Activity>
  {
    match (StrProp(v, "action"), StrProp(v, "type"), StrProp(v, "time"), Prop(v, "timestamp"))
    case (Some(a), Some(k), Some(t), Some(Num(n))) => Some(Activity(a, k, t, n))
    case _ => None
  }

  function StudentValue(s: Student): Value
  {
    Obj(map["id" := Str(s.id), "username" := Str(s.username), "password" := Str(s.password),
            "name" := Str(s.name)])
  }

  function ReadStudent(v: Value): (r: Option<Student>)
    ensures r.Some? ==> && PropIs(v, "id", r.value.id) && PropIs(v, "username", r.value.username)
                        && PropIs(v, "password", r.value.password) && PropIs(v, "name", r.value.name)
  {
    match (StrProp(v, "id"), StrProp(v, "username"), StrProp(v, "password"), StrProp(v, "name"))
    case (Some(i), Some(u), Some(p), Some(n)) => Some(Student(i, u, p, n))
    case _ => None
  }

  function HomeworkValue(h: Homework): Value
  {
    Obj(map["studentId" := Str(h.studentId), "completed" := Bool(h.completed)])
  }

  function ReadHomework(v: Value): (r: Option<Homework>)
    ensures r.Some? ==> PropIs(v, "studentId", r.value.studentId)
    ensures r.Some? ==> Prop(v, "completed") == Some(Bool(r.value.completed))
  {
    match (StrProp(v, "studentId"), Prop(v, "completed"))
    case (Some(i), Some(Bool(c))) => Some(Homework(i, c))
    case _ => None
  }

  /** Each record reads back from its encoding. */
  lemma SettingsRoundTrip(a: AdminSettings)
    ensures ReadSettings(SettingsValue(a)) == Some(a)
  {
  }

  lemma ActivityRoundTrip(e: Activity)
    ensures ReadActivity(ActivityValue(e)) == Some(e)
  {
  }

  lemma StudentRoundTrip(s: Student)
    ensures ReadStudent(StudentValue(s)) == Some(s)
  {
  }

  lemma HomeworkRoundTrip(h: Homework)
    ensures ReadHomework(HomeworkValue(h)) == Some(h)
  {
  }

  function StudentValues(ss: seq<Student>): (r: seq<Value>)
    ensures |r| == |ss| && forall i :: 0 <= i < |ss| ==> r[i] == StudentValue(ss[i])
  {
    seq(|ss|, i requires 0 <= i < |ss| => StudentValue(ss[i]))
  }

  function HomeworkValues(hs: seq<Homework>): (r: seq<Value>)
    ensures |r| == |hs| && forall i :: 0 <= i < |hs| ==> r[i] == HomeworkValue(hs[i])
  {
    seq(|hs|, i requires 0 <= i < |hs| => HomeworkValue(hs[i]))
  }
}

=== FILE: storage_facts.dfy ===
/** Properties of the storage facade that relate several calls: idempotent
    initialisation, the save/read round trip, ordered logging, and the progress fields. */
module StorageFacts {
  import opened Json
  import opened Browser
  import opened Lookup
  import opened Records
  import opened Platform

  /** A second `initStorage` after one that finished writes nothing and cannot throw,
      whatever the browser would accept. */
  lemma InitStorageIdempotent(st: State, env: Env, env': Env)
    requires InitStorage(st, env).Done?
    ensures InitStorage(InitStorage(st, env).state, env') == Done(InitStorage(st, env).state, ())
  {
  }

  /** On a fresh browser, `initStorage` writes exactly the eight defaults. */
  lemma InitStorageFresh(env: Env)
    requires Roomy(env)
    ensures InitStorage(State(map[], NoSession), env).Done?
    ensures var local := InitStorage(State(map[], NoSession), env).state.local;
      forall k :: k in local <==> Listed(Defaults, k)
    ensures var local := InitStorage(State(map[], NoSession), env).state.local;
      forall i :: 0 <= i < |Defaults| ==> Defaults[i].0 in local && local[Defaults[i].0] == Json(Defaults[i].1)
  {
    var local := InitStorage(State(map[], NoSession), env).state.local;
    forall k
      ensures k in local <==> Listed(Defaults, k)
    {
      if Listed(Defaults, k) {
        var i :| 0 <= i < |Defaults| && Defaults[i].0 == k;
        assert !Unset(local, Defaults[i].0);
      } else {
        assert SameAt(local, map[], k);
      }
    }
  }

  /** On a fresh browser, after `initStorage`, the admin record reads as
      `ielts_teacher` / `admin123`. */
  lemma FreshAdminSettings(env: Env)
    requires Roomy(env)
    ensures ReadSettings(GetData(InitStorage(State(map[], NoSession), env).state, SettingsKey)) ==
      Some(AdminSettings("ielts_teacher", "admin123"))
  {
    var st := InitStorage(State(map[], NoSession), env).state;
    assert Unset(map[], SettingsKey);
    assert GetData(st, SettingsKey) == AdminDefaults;
    SettingsRoundTrip(AdminSettings("ielts_teacher", "admin123"));
  }

  /** `saveData(key, data)` then `getData(key)` gives `data` back (or `[]` for a falsy
      `data`), and every other key reads as before. */
  lemma SaveThenGet(st: State, key: string, data: Value, env: Env)
    requires env.fits(st.local, key, data)
    ensures GetData(SaveData(st, key, data, env).state, key) == if Truthy(data) then data else Arr([])
    ensures forall k :: k != key ==> GetData(SaveData(st, key, data, env).state, k) == GetData(st, k)
  {
    var s := SaveData(st, key, data, env).state;
    forall k | k != key
      ensures GetData(s, k) == GetData(st, k)
    {
      assert SameAt(s.local, st.local, k);
    }
  }

  /** One `logActivity` call of a sequence: what it logs and with which clock. */
  datatype Call = Call(action: string, kind: string, env: Env)

  /** The entries a sequence of calls appends, in call order. */
  function Entries(calls: seq<Call>): (r: seq<Value>)
    ensures |r| == |calls|
  {
    if |calls| == 0 then [] else [LogEntry(calls[0].action, calls[0].kind, calls[0].env)] + Entries(calls[1..])
  }

  /** `logActivity` called once per element of `calls`, in order, stopping at a throw. */
  function LogAll(st: State, calls: seq<Call>): Run<()>
    decreases |calls|
  {
    if |calls| == 0 then Done(st, ())
    else
      match LogActivity(st, calls[0].action, calls[0].kind, calls[0].env)
      case Threw(s) => Threw(s)
      case Done(s, _) => LogAll(s, calls[1..])
  }

  /** `LogAll` past a first call that did not throw. */
  lemma LogAllUnfold(st: State, calls: seq<Call>)
    requires |calls| > 0
    requires LogActivity(st, calls[0].action, calls[0].kind, calls[0].env).Done?
    ensures LogAll(st, calls) ==
      LogAll(LogActivity(st, calls[0].action, calls[0].kind, calls[0].env).state, calls[1..])
  {
  }

  /** One accepted `logActivity` call appends its entry and touches nothing else. */
  lemma LogStep(st: State, c: Call)
    requires Collection(st, ActivitiesKey).Some?
    requires Roomy(c.env)
    ensures LogActivity(st, c.action, c.kind, c.env).Done?
    ensures var s := LogActivity(st, c.action, c.kind, c.env).state;
      && Collection(s, ActivitiesKey) ==
         Some(Collection(st, ActivitiesKey).value + [LogEntry(c.action, c.kind, c.env)])
      && s.session == st.session
      && SameExcept(s.local, st.local, ActivitiesKey)
  {
    var log := Collection(st, ActivitiesKey).value;
    assert c.env.fits(st.local, ActivitiesKey, Arr(log + [LogEntry(c.action, c.kind, c.env)]));
  }

  /** After N logged calls the log is the old log followed by the N entries in call
      order, each with its own action, type and clock. */
  lemma {:induction false} LogAllInOrder(st: State, calls: seq<Call>)
    requires Collection(st, ActivitiesKey).Some?
    requires forall i :: 0 <= i < |calls| ==> Roomy(calls[i].env)
    ensures LogAll(st, calls).Done?
    ensures Collection(LogAll(st, calls).state, ActivitiesKey) ==
      Some(Collection(st, ActivitiesKey).value + Entries(calls))
    decreases |calls|
  {
    if |calls| == 0 {
      assert Collection(st, ActivitiesKey).value + Entries(calls) == Collection(st, ActivitiesKey).value;
    } else {
      var c, rest := calls[0], calls[1..];
      LogStep(st, c);
      var s := LogActivity(st, c.action, c.kind, c.env).state;
      assert forall i :: 0 <= i < |rest| ==> rest[i] == calls[i + 1];
      LogAllInOrder(s, rest);
      LogAllUnfold(st, calls);
      var log := Collection(st, ActivitiesKey).value;
      assert Entries(calls) == [LogEntry(c.action, c.kind, c.env)] + Entries(rest);
      assert log + [LogEntry(c.action, c.kind, c.env)] + Entries(rest) == log + Entries(calls);
    }
  }

  /** Logging, however many times, touches neither the session nor any key but the log. */
  lemma {:induction false} LogAllFrame(st: State, calls: seq<Call>)
    ensures LogAll(st, calls).state.session == st.session
    ensures SameExcept(LogAll(st, calls).state.local, st.local, ActivitiesKey)
    decreases |calls|
  {
    if |calls| > 0 {
      var c := calls[0];
      var r := LogActivity(st, c.action, c.kind, c.env);
      if r.Done? {
        LogAllFrame(r.state, calls[1..]);
        LogAllUnfold(st, calls);
        var s2 := LogAll(r.state, calls[1..]).state;
        forall k | k != ActivitiesKey
          ensures SameAt(s2.local, st.local, k)
        {
          assert SameAt(s2.local, r.state.local, k);
          assert SameAt(r.state.local, st.local, k);
        }
      }
    }
  }

  /** Decoded, the log grows by exactly the record of the call: the action, the type,
      and the call's two clock readings. */
  lemma LogActivityRecord(st: State, action: string, kind: string, env: Env)
    requires Collection(st, ActivitiesKey).Some?
    requires env.fits(st.local, ActivitiesKey,
      Arr(Collection(st, ActivitiesKey).value + [LogEntry(action, kind, env)]))
    ensures var log := Collection(LogActivity(st, action, kind, env).state, ActivitiesKey);
      && log.Some?
      && |log.value| == |Collection(st, ActivitiesKey).value| + 1
      && log.value[..|log.value| - 1] == Collection(st, ActivitiesKey).value
      && ReadActivity(log.value[|log.value| - 1]) == Some(Activity(action, kind, env.localeTime, env.now))
  {
    var log := Collection(LogActivity(st, action, kind, env).state, ActivitiesKey).value;
    assert log == Collection(st, ActivitiesKey).value + [LogEntry(action, kind, env)];
  }

  /** The typed count of the homework assigned to `id`. */
  function Assigned(hs: seq<Homework>, id: string): nat
  {
    if |hs| == 0 then 0 else (if hs[0].studentId == id then 1 else 0) + Assigned(hs[1..], id)
  }

  /** The typed count of the completed homework assigned to `id`. */
  function Finished(hs: seq<Homework>, id: string): nat
  {
    if |hs| == 0 then 0
    else (if hs[0].studentId == id && hs[0].completed then 1 else 0) + Finished(hs[1..], id)
  }

  /** The stored objects `vs` read as the homework records `hs`, whatever other fields
      they carry. */
  ghost predicate ReadsAs(vs: seq<Value>, hs: seq<Homework>)
  {
    |vs| == |hs| && forall j :: 0 <= j < |vs| ==> ReadHomework(vs[j]) == Some(hs[j])
  }

  /** Filtering the stored objects by `studentId`, then by `completed`, counts the same
      homework as the typed counts. */
  lemma {:induction false} OwnedCounts(vs: seq<Value>, hs: seq<Homework>, id: string)
    requires ReadsAs(vs, hs)
    ensures |Owned(vs, id)| == Assigned(hs, id)
    ensures Completed(Owned(vs, id)) == Finished(hs, id)
    ensures Finished(hs, id) <= Assigned(hs, id)
  {
    if |hs| > 0 {
      assert forall j :: 0 <= j < |vs| - 1 ==> vs[1..][j] == vs[j + 1] && hs[1..][j] == hs[j + 1];
      OwnedCounts(vs[1..], hs[1..], id);
      var v, rest := vs[0], Owned(vs[1..], id);
      assert ReadHomework(v) == Some(hs[0]);
      if hs[0].studentId == id {
        assert Owned(vs, id) == [v] + rest;
        assert ([v] + rest)[1..] == rest;
        assert PropTruthy(v, "completed") <==> hs[0].completed;
      } else {
        assert !PropIs(v, "studentId", id);
        assert Owned(vs, id) == rest;
      }
    }
  }

  /** `calculateProgress(id)` over a homework collection whose objects read as the
      records `hs`: 0 with no homework for `id`, otherwise its completed share in
      percent rounded half up. */
  lemma ProgressOfRecords(st: State, vs: seq<Value>, hs: seq<Homework>, id: string)
    requires GetData(st, HomeworksKey) == Arr(vs)
    requires ReadsAs(vs, hs)
    ensures Finished(hs, id) <= Assigned(hs, id)
    ensures Assigned(hs, id) == 0 ==> CalculateProgress(st, id) == Done(st, 0)
    ensures Assigned(hs, id) > 0 ==>
      CalculateProgress(st, id) == Done(st, RoundPercent(Finished(hs, id), Assigned(hs, id)))
  {
    OwnedCounts(vs, hs, id);
    assert forall j :: 0 <= j < |vs| ==> vs[j] != Null by {
      forall j | 0 <= j < |vs| ensures vs[j] != Null { assert ReadHomework(vs[j]).Some?; }
    }
  }

  /** Three of four homework done is 75%; a student without homework is at 0%. */
  lemma ThreeOfFour(st: State)
    requires GetData(st, HomeworksKey) == Arr(HomeworkValues([
      Homework("s1", true), Homework("s1", true), Homework("s1", false), Homework("s1", true)]))
    ensures CalculateProgress(st, "s1") == Done(st, 75)
    ensures CalculateProgress(st, "s2") == Done(st, 0)
  {
    var hs := [Homework("s1", true), Homework("s1", true), Homework("s1", false), Homework("s1", true)];
    var vs := HomeworkValues(hs);
    forall j | 0 <= j < |vs|
      ensures ReadHomework(vs[j]) == Some(hs[j])
    {
      HomeworkRoundTrip(hs[j]);
    }
    ProgressOfRecords(st, vs, hs, "s1");
    ProgressOfRecords(st, vs, hs, "s2");
    assert hs[1..][1..][1..][1..] == [];
    assert Assigned(hs[1..][1..][1..], "s1") == 1 && Finished(hs[1..][1..][1..], "s1") == 1;
    assert Assigned(hs[1..][1..], "s1") == 2 && Finished(hs[1..][1..], "s1") == 1;
    assert Assigned(hs, "s1") == 4 && Finished(hs, "s1") == 3;
    assert Assigned(hs, "s2") == 0;
    assert RoundPercent(3, 4) == 75;
  }

  /** `updateStudentProgress(id)` when a student has the id: only the first such
      student changes, and only in `progress` (the freshly computed percentage) and
      `lastActive` (the call's clock); every other student and field is as before. */
  lemma UpdateStudentProgressEffect(st: State, id: string, env: Env, i: nat)
    requires Collection(st, StudentsKey).Some?
    requires FirstHit(Collection(st, StudentsKey).value, ById(id), i)
    requires CalculateProgress(st, id).Done?
    requires Roomy(env)
    ensures var r := UpdateStudentProgress(st, id, env);
      var before := Collection(st, StudentsKey).value;
      && r.Done?
      && Collection(r.state, StudentsKey).Some?
      && var after := Collection(r.state, StudentsKey).value;
      && |after| == |before|
      && (forall j :: 0 <= j < |before| && j != i ==> after[j] == before[j])
      && Prop(after[i], "progress") == Some(Num(CalculateProgress(st, id).value))
      && Prop(after[i], "lastActive") == Some(Str(env.isoTime))
      && (forall f :: f != "progress" && f != "lastActive" ==> Prop(after[i], f) == Prop(before[i], f))
  {
    var before := Collection(st, StudentsKey).value;
    FirstHitIsFound(before, ById(id), i);
  }
}
